=== FILE: README.md ===
# inetd connection registry — a Dafny model

`inetd` is a forward TCP relay. For every route it listens on a source
port. For each client it accepts, it dials the route's destination and then
copies bytes both ways between the two sockets. One single-threaded epoll
loop multiplexes everything: the listeners, the data sockets, a 10-second
timer and a signal descriptor.

This project models the bookkeeping that loop does. Two tables of `MAXSOCK`
(1024) slots are indexed by descriptor number:

- `clientsocks[d]` holds the peer of `d`, or 0 when `d` is free.
- `clientatime[d]` holds the time of the last transfer on `d`.

The loop changes these tables in four places: accept-and-pair, relay,
disconnect teardown, and the idle sweep on each timer tick. In front of
these sits the classification of a ready descriptor as timer, signal,
listener or data socket. The exit path (`EXIT`) only reads the peer table
to close every descriptor in it. It is reached from a failing `epoll_wait`
and from the `SIGINT`/`SIGTERM` handlers, not from the dispatch.

Modules (one file each):

- `Registry` (`registry.dfy`): the two tables and their invariant. Slot 0
  is never used, nobody is paired with itself, pairing is symmetric
  (`Paired`), and both halves of a pair carry the same stamp (`SameStamp`).
- `Accept` (`accept.dfy`): the listener branch. It covers the capacity and
  dial-failure rejections and symmetric pairing.
- `Teardown` (`teardown.dfy`): the end-of-stream branch. It clears the
  peer's slot first, then the own slot, and shows why that order matters.
- `Relay` (`relay.dfy`): the data branch. The bytes read go unmodified to
  the peer, and both stamps are refreshed.
- `Sweep` (`sweep.dfy`): the idle reaper loop over all slots.
- `Shutdown` (`shutdown.dfy`): the close-everything exit path.
- `Dispatch` (`dispatch.dfy`): the timer → signal → listener → data
  classification.
- `Reactor` (`reactor.dfy`): one dispatch step combining all of the above.
  It preserves the invariant.

Kernel services are inputs to the model:

- `time(0)` is an integer `now`.
- `accept()` and the outbound dial (`conntodst`) are integers.
- `recv()` is a buffer plus a length.
- `send()` appends to the byte stream written to a descriptor.
- `close()` is recorded as the list of descriptors a step closes.

The operating system hands out the lowest free descriptor number. The code
relies on that number being positive and on its slot being free, because 0
is its "free" marker. That holds only while descriptor 0 stays open (the
program closes standard input at start-up, so number 0 goes to the first
file or socket it opens next) and only while the program closes nothing
but live descriptors. The model states the assumption as a
precondition (`Accept.FreshDescriptors`). The finding below shows the
source as written can break it.

## Model

| member | source | states |
|---|---|---|
| Registry.Empty | tools/cpp/inetd.cpp:25-27 | The zero-filled start-up tables satisfy the pairing invariant and have no live descriptor. |
| Reactor.Start | tools/cpp/inetd.cpp:25-27 | The process starts with zero-filled tables, which satisfy the invariant, with no live descriptor and nothing yet written to any descriptor. |
| Accept.Accept | tools/cpp/inetd.cpp:194-219 | A failed accept, a client descriptor at or above MAXSOCK, a failed dial and a destination descriptor at or above MAXSOCK each leave both tables exactly unchanged. They close nothing, the client, the client, and both descriptors respectively. Otherwise the two descriptors are paired both ways and stamped with `now`, and no other slot changes. Each verdict is stated in both directions. |
| Accept.AcceptPreservesValid | tools/cpp/inetd.cpp:218-219 | Pairing two fresh descriptors keeps the registry symmetric, free of self pairs, slot 0 unused, and equal-stamped. |
| Accept.AcceptOfReusedZeroBreaksPairing | tools/cpp/inetd.cpp:194-219 | If `accept()` returns 0, which becomes possible once descriptor 0 has been closed, pairing it with a dialed `dst` stores `dst` in slot 0. It leaves `dst`'s slot at 0, so the open `dst` reads as free and pairing is no longer symmetric. |
| Teardown.Disconnect | tools/cpp/inetd.cpp:236-245 | Teardown of `fd` closes `fd` and its recorded peer. It leaves both slots 0, changes no other slot and no stamp. |
| Teardown.DisconnectPreservesValid | tools/cpp/inetd.cpp:240-243 | Teardown keeps the invariant, and every pair other than `fd`'s survives unchanged. |
| Teardown.DisconnectOfClearedSlot | tools/cpp/inetd.cpp:240-243 | Teardown of an already-cleared `fd` writes only slot 0 (and slot `fd`, which is already 0), so the tables are unchanged. It still closes `fd` and descriptor 0. |
| Teardown.ClearSelfFirstStrandsPeer | tools/cpp/inetd.cpp:242-243 | Swapping the two clearing writes would clear slot 0 instead of the peer. The peer would still point at the freed descriptor and the invariant would break, which is why the source insists on peer-first. |
| Teardown.DisconnectCheckedClosesOnlyLive | tools/cpp/inetd.cpp:236-245 | The checked teardown closes exactly the live pair of `fd` and clears both slots. On a descriptor that is no longer live it closes nothing and changes nothing. It keeps the invariant. |
| Teardown.BothEndsHangUpUnchecked | tools/cpp/inetd.cpp:236-245 | Both ends reporting end of stream in one batch, as written, close `[fd, peer, peer, 0]`. |
| Teardown.BothEndsHangUpChecked | tools/cpp/inetd.cpp:236-245 | The same batch with the checked teardown closes `[fd, peer]`, each once, never 0, and both slots end free. |
| Relay.Relay | tools/cpp/inetd.cpp:249-254 | Exactly `buffer[0..buflen)` is appended to what the peer of `fd` has received. Nothing else receives bytes. `clientsocks` is unchanged. Both stamps become `now` and no other stamp changes. |
| Relay.RelayPreservesValid | tools/cpp/inetd.cpp:253-254 | Relaying keeps the invariant, including equal stamps on both halves. |
| Relay.RelayEach | tools/cpp/inetd.cpp:232-254 | Successive reads on `fd`, each of at most 5000 bytes, reach the peer concatenated in order and unmodified. The pairing is untouched. |
| Relay.RelayEachOnlyToPeer | tools/cpp/inetd.cpp:249-250 | The same reads deliver nothing to any descriptor other than the peer. |
| Relay.PayloadPassesThrough | tools/cpp/inetd.cpp:232-250 | A payload of any length is split into reads of at most the buffer size. The peer receives it intact, whether it is shorter or longer than the buffer. |
| Sweep.Sweep | tools/cpp/inetd.cpp:151-164 | After the loop, a slot is cleared exactly when it was live and it or its peer was idle for strictly more than 80 seconds. No live slot is left idle, and non-idle pairs are untouched. Each descriptor of an evicted pair is closed exactly once and nothing else is closed. The invariant is preserved. Under equal stamps, a pair idle exactly 80 seconds survives. |
| Sweep.Scan | tools/cpp/inetd.cpp:151-164 | The loop itself. After visiting all slots in order, a slot is cleared exactly when it or its peer was found idle when visited. Each cleared descriptor was closed exactly once. |
| Sweep.EvictionKeepsPairs | tools/cpp/inetd.cpp:154-162 | Removing whole evicted pairs keeps pairing symmetric and stamps equal. Under equal stamps, every pair idle for at most 80 seconds keeps its peer. |
| Shutdown.PrefixClosesOnce | tools/cpp/inetd.cpp:371-372 | Suppose a value occurs as a positive entry at one slot only. After the close-all loop has passed the first `n` slots, that value has been closed once if the loop has passed its slot, and never otherwise. |
| Shutdown.ClientsClosedOnce | tools/cpp/inetd.cpp:371-372 | Symmetric pairing makes the positive table values exactly the live descriptors. The exit loop closes each live descriptor exactly once and no free one. |
| Shutdown.ExitClosesAll | tools/cpp/inetd.cpp:362-378 | In the whole exit sequence, the part after the listeners and before the epoll and timer descriptors closes every live descriptor exactly once and no free one. |
| Dispatch.RouteIndex | tools/cpp/inetd.cpp:186-189 | The route scan stops at the first route whose listener is the ready descriptor, or runs past the end when there is none. |
| Dispatch.Classify | tools/cpp/inetd.cpp:142-226 | The timer descriptor is always a timer tick and the signal descriptor a signal. Neither reaches the accept or data path. A listener descriptor is handled by its first route and is never data. Everything else is data, in both directions. |
| Reactor.Step | tools/cpp/inetd.cpp:136-255 | One dispatch keeps the invariant. A signal changes nothing. A timer tick only sweeps: exactly the live slots that are idle are cleared, no other slot and no stamp changes, and each idle live descriptor is closed once. A listener event moves no bytes and touches no existing pair. Every rejected accept, a failed `accept()` included, leaves the registry unchanged. End of stream on a live `fd` closes `fd` and then its peer and frees both slots. No other slot and no stamp changes. On a descriptor that is no longer live it changes and closes nothing. Data is forwarded unmodified. |

## Left out

- Sockets, bind/listen (`initserver`), `gethostbyname`/connect (`conntodst`), `fcntl`, epoll registration, timerfd and signalfd creation: system calls, represented only by the integers they return.
- `loadroute` (route file parsing) and `main`'s argument check: configuration input, outside the connection bookkeeping. The route table appears only as the list of listener descriptors in `Dispatch.Handles`.
- The signal branch reads the pending signal and logs it; `Reactor.Step` models that it changes nothing. The classic `SIGINT`/`SIGTERM` handler that calls `EXIT` is not a reactor step.
- Logging (`logfile`), the heartbeat (`pactive`), and `closeioandsignal`: side effects with no registry state.
- Timer re-arming and the 10-second period: timing, not state.
- `send` blocking or short writes: the model treats one `send` as delivering all bytes.
- The epoll batch loop (`epoll_wait` with up to 10 events, and its failure path into `EXIT`): modelled one event at a time through `Reactor.Step`.
- Sweep.Sweep: `time(0)` is read again for every slot of the sweep; the model compares all slots against one `now`.
- Reactor.Step: `time(0)` is read separately for each slot in the source (lines 154, 218-219, 253-254). The model uses one `now` per event, so equal stamps in a pair hold by that choice; a clock tick between two reads would give a pair stamps one second apart. `Sweep.Sweep` does not depend on equal stamps: a pair is evicted when either half is idle.
- Reactor.Step: `clientatime` is a C `int` and `time(0)` a `time_t`; the model uses unbounded integers, so the truncation after 2038 is not modelled.
- Reactor.Step: the end-of-stream branch uses the checked teardown from the finding below, not the unchecked one the source has. Within that one step the tables come out the same either way, but the descriptors closed differ, and they decide what later `accept()` calls return. The unchecked teardown closes descriptor 0, and it may close a second time a number that an earlier accept in the same batch reused and paired. Either can make `accept()` hand out a number whose slot is 0 (`Accept.AcceptOfReusedZeroBreaksPairing`) or one whose slot is still set. `Accept.FreshDescriptors` rules both out, so the model covers only runs in which the source does not break pairing.

## Findings

| source | as written | input that shows it | evidently intended | confidence | as-written member | corrected member |
|---|---|---|---|---|---|---|
| tools/cpp/inetd.cpp:236-243 | On a zero or negative `recv`, the teardown closes `fd` and `clientsocks[fd]` without checking that `fd` is still paired. | Pair 5↔6, and one epoll batch reporting end of stream on both 5 and 6. The first event tears the pair down. The second `recv(6)` fails on the closed descriptor, so the teardown runs again: it closes 6 a second time and closes descriptor 0. | A stale event for a descriptor whose pair is already gone is a no-op (nothing is closed twice and descriptor 0 is never closed). Consequence: with 0 closed, a later `accept()` can return 0, and pairing it puts the peer in slot 0 and leaves the peer's own slot at 0, so pairing is broken (`Accept.AcceptOfReusedZeroBreaksPairing`). A second close of the peer can also hit a number already reused by a new pair in the same batch. | medium, not executed | Teardown.BothEndsHangUpUnchecked | Teardown.BothEndsHangUpChecked |

=== FILE: accept.dfy ===
/** The listener branch of the reactor: accept a client, dial the route's
    destination, and pair the two descriptors in the registry. The results
    of accept() and of the outbound dial are parameters. */
module Accept {
  import opened Registry

  /** How an accept attempt ended. */
  datatype Verdict =
    | NoClient            // accept() failed: nothing to do
    | ClientOverCapacity  // the client descriptor is >= MAXSOCK: closed
    | DialFailed          // the destination could not be dialed: client closed
    | PeerOverCapacity    // the destination descriptor is >= MAXSOCK: both closed
    | PairCreated         // both descriptors registered as a pair

  datatype AcceptResult = AcceptResult(verdict: Verdict, reg: Registry, closed: seq<int>)

  /** What the relay assumes of freshly returned descriptors: they are
      positive and not currently in the registry; a dialed descriptor
      differs from the still-open client descriptor. The lowest-free-number
      rule of the operating system gives this only while descriptor 0 stays
      open and only live descriptors have been closed. */
  predicate FreshDescriptors(r: Registry, src: int, dst: int)
    requires WellSized(r)
  {
    && (src >= 0 ==> src > 0 && (src < MAXSOCK ==> r.socks[src] == 0))
    && (0 <= src < MAXSOCK && dst >= 0 ==>
          dst > 0 && dst != src && (dst < MAXSOCK ==> r.socks[dst] == 0))
  }

  /** Handle one readable listener. `src` is what accept() returned and
      `dst` what the dial returned; `dst` is only consulted once `src` has
      been found usable. */
  function Accept(r: Registry, src: int, dst: int, now: int): (res: AcceptResult)
    requires WellSized(r)
    ensures WellSized(res.reg)
    ensures res.verdict == NoClient <==> src < 0
    ensures res.verdict == ClientOverCapacity <==> src >= MAXSOCK
    ensures res.verdict == DialFailed <==> 0 <= src < MAXSOCK && dst < 0
    ensures res.verdict == PeerOverCapacity <==> 0 <= src < MAXSOCK && dst >= MAXSOCK
    ensures res.verdict == PairCreated <==> 0 <= src < MAXSOCK && 0 <= dst < MAXSOCK
    // a rejected attempt leaves both tables exactly as they were
    ensures res.verdict != PairCreated ==> res.reg == r
    // ... and only closes the descriptors it obtained
    ensures res.verdict == NoClient ==> res.closed == []
    ensures res.verdict in {ClientOverCapacity, DialFailed} ==> res.closed == [src]
    ensures res.verdict == PeerOverCapacity ==> res.closed == [src, dst]
    // a successful attempt pairs both ways, stamps both, and changes no other slot
    ensures res.verdict == PairCreated ==>
      && res.closed == []
      && res.reg.socks[src] == dst && res.reg.socks[dst] == src
      && res.reg.atime[src] == now && res.reg.atime[dst] == now
      && forall k :: 0 <= k < MAXSOCK && k != src && k != dst ==>
           res.reg.socks[k] == r.socks[k] && res.reg.atime[k] == r.atime[k]
  {
    if src < 0 then AcceptResult(NoClient, r, [])
    else if src >= MAXSOCK then AcceptResult(ClientOverCapacity, r, [src])
    else if dst < 0 then AcceptResult(DialFailed, r, [src])
    else if dst >= MAXSOCK then AcceptResult(PeerOverCapacity, r, [src, dst])
    else
      var socks := r.socks[src := dst][dst := src];
      var atime := r.atime[src := now][dst := now];
      AcceptResult(PairCreated, Registry(socks, atime), [])
  }

  /** Accepting keeps the registry invariant, provided the descriptors are fresh. */
  lemma AcceptPreservesValid(r: Registry, src: int, dst: int, now: int)
    requires Valid(r)
    requires FreshDescriptors(r, src, dst)
    ensures Valid(Accept(r, src, dst, now).reg)
  {
  }

  /** Why `FreshDescriptors` needs a positive client descriptor. Once
      descriptor 0 has been closed, the lowest free number is 0 again, so
      accept() may return it. Pairing it with a dialed `dst`
      stores the peer in slot 0 and leaves `dst` pointing at 0, so `dst`
      reads as free while its connection is open and pairing is broken. */
  lemma AcceptOfReusedZeroBreaksPairing(r: Registry, dst: int, now: int)
    requires Valid(r)
    requires 0 < dst < MAXSOCK
    requires r.socks[dst] == 0
    ensures var res := Accept(r, 0, dst, now);
      && res.verdict == PairCreated
      && res.reg.socks[0] == dst && res.reg.socks[dst] == 0
      && !Live(res.reg, dst)
      && !Paired(res.reg)
  {
  }
}

=== FILE: dispatch.dfy ===
/** How the reactor decides what a ready descriptor is: the timer is
    recognised first, then the signal descriptor, then the listeners in
    route order; anything else is a data socket. */
module Dispatch {

  datatype EventClass =
    | TimerTick                 // the idle/heartbeat timer fired
    | SignalArrived             // a blocked termination signal is pending
    | ListenerReady(route: nat) // the listener of route `route` has a pending client
    | DataReady                 // a paired data socket is readable

  /** The descriptors fixed at start-up: the timer, the signal descriptor
      and each route's listener (negative for a route whose listener failed). */
  datatype Handles = Handles(tfd: int, sigfd: int, listeners: seq<int>)

  /** The index at which the scan over the routes stops: the first route
      whose listener is `fd`, or the number of routes if there is none. */
  function RouteIndex(fd: int, listeners: seq<int>): (j: nat)
    ensures j <= |listeners|
    ensures j < |listeners| ==> listeners[j] == fd
    ensures forall k :: 0 <= k < j ==> listeners[k] != fd
  {
    if |listeners| == 0 then 0
    else if listeners[0] == fd then 0
    else 1 + RouteIndex(fd, listeners[1..])
  }

  function Classify(h: Handles, fd: int): (c: EventClass)
    // timer and signal events never reach the accept or data paths
    ensures fd == h.tfd ==> c == TimerTick
    ensures fd != h.tfd && fd == h.sigfd ==> c == SignalArrived
    // a listener event is handled by the first route with that listener, never as data
    ensures c.ListenerReady? <==> fd != h.tfd && fd != h.sigfd && fd in h.listeners
    ensures c.ListenerReady? ==>
      && c.route < |h.listeners| && h.listeners[c.route] == fd
      && forall k :: 0 <= k < c.route ==> h.listeners[k] != fd
    ensures c == DataReady <==> fd != h.tfd && fd != h.sigfd && fd !in h.listeners
  {
    if fd == h.tfd then TimerTick
    else if fd == h.sigfd then SignalArrived
    else
      var j := RouteIndex(fd, h.listeners);
      if j < |h.listeners| then ListenerReady(j) else DataReady
  }
}

=== FILE: reactor.dfy ===
/** One iteration of the event loop's inner body: dispatch a ready
    descriptor to the timer, signal, listener or data branch and apply that
    branch to the registry. What the kernel reports while the event is
    handled (the clock, accept(), the dial, recv()) is an input. */
module Reactor {
  import opened Registry
  import opened Accept
  import opened Teardown
  import opened Relay
  import opened Sweep
  import opened Dispatch

  /** The reactor's mutable state: the registry and the bytes written to
      each descriptor so far. */
  datatype State = State(reg: Registry, out: Outbox)

  /** What the kernel answers while one event is handled: the current time,
      the result of accept(), the result of the dial, and what recv() put in
      the buffer (`buflen` bytes, or zero / negative for end of stream or
      an error). */
  datatype Kernel = Kernel(now: int, accepted: int, dialed: int, buflen: int, buffer: seq<byte>)

  /** The guarantees the reactor relies on: descriptors returned by accept()
      and the dial are fresh; a data event comes from a registered data
      socket, whose number is below MAXSOCK, and recv() never reports more
      than the buffer holds. */
  predicate KernelOk(h: Handles, st: State, fd: int, io: Kernel)
    requires WellSized(st.reg)
  {
    && (Classify(h, fd).ListenerReady? ==> FreshDescriptors(st.reg, io.accepted, io.dialed))
    && (Classify(h, fd) == DataReady ==>
          0 <= fd < MAXSOCK && |io.buffer| == BUFSIZE && io.buflen <= BUFSIZE)
  }

  /** The initial state: empty tables, nothing written. */
  function Start(): (st: State)
    ensures Valid(st.reg)
    ensures forall d :: 0 <= d < MAXSOCK ==> !Live(st.reg, d)
    ensures forall d :: Written(st.out, d) == []
  {
    State(Empty(), map[])
  }

  /** Handle one ready descriptor `fd`. `closed` lists the descriptors the
      branch closes, in order. */
  method Step(h: Handles, st: State, fd: int, io: Kernel) returns (st': State, closed: seq<int>)
    requires Valid(st.reg)
    requires KernelOk(h, st, fd, io)
    // the registry invariant holds again between events
    ensures Valid(st'.reg)
    // signal: read and logged only
    ensures Classify(h, fd) == SignalArrived ==> st' == st && closed == []
    // timer: only the idle sweep runs; nothing is accepted or relayed
    ensures Classify(h, fd) == TimerTick ==>
      && st'.out == st.out && st'.reg.atime == st.reg.atime
      && (forall d :: 0 <= d < MAXSOCK && st'.reg.socks[d] > 0 ==> !Idle(st'.reg, io.now, d))
      && (forall d :: 0 <= d < MAXSOCK ==>
            st'.reg.socks[d] == if Live(st.reg, d) && Idle(st.reg, io.now, d) then 0 else st.reg.socks[d])
      && (forall d :: multiset(closed)[d] == if Live(st.reg, d) && Idle(st.reg, io.now, d) then 1 else 0)
    // listener: never treated as data; no bytes move and no existing pair is touched
    ensures Classify(h, fd).ListenerReady? ==>
      && st'.out == st.out
      && (forall d :: Live(st.reg, d) ==> st'.reg.socks[d] == st.reg.socks[d] && st'.reg.atime[d] == st.reg.atime[d])
      && (!(0 <= io.accepted < MAXSOCK && 0 <= io.dialed < MAXSOCK) ==> st'.reg == st.reg)
      && (0 <= io.accepted < MAXSOCK && 0 <= io.dialed < MAXSOCK ==>
            st'.reg.socks[io.accepted] == io.dialed && st'.reg.socks[io.dialed] == io.accepted)
    // data, end of stream or error: the pair, if still registered, is torn down
    ensures Classify(h, fd) == DataReady && io.buflen <= 0 ==>
      && st'.out == st.out
      && st'.reg.atime == st.reg.atime
      && !Live(st'.reg, fd) && !Live(st'.reg, st.reg.socks[fd])
      && (Live(st.reg, fd) ==> closed == [fd, st.reg.socks[fd]])
      && (!Live(st.reg, fd) ==> st'.reg == st.reg && closed == [])
      && (forall d :: d in closed ==> Live(st.reg, d))
      && (forall d :: 0 <= d < MAXSOCK && d != fd && d != st.reg.socks[fd] ==> st'.reg.socks[d] == st.reg.socks[d])
    // data bytes: forwarded unmodified to the peer
    ensures Classify(h, fd) == DataReady && io.buflen > 0 ==>
      && closed == []
      && st'.reg.socks == st.reg.socks
      && Written(st'.out, st.reg.socks[fd]) == Written(st.out, st.reg.socks[fd]) + io.buffer[..io.buflen]
  {
    match Classify(h, fd)
    case TimerTick =>
      var reg';
      reg', closed := Sweep.Sweep(st.reg, io.now);
      st' := State(reg', st.out);
    case SignalArrived =>
      st', closed := st, [];
    case ListenerReady(_) =>
      AcceptPreservesValid(st.reg, io.accepted, io.dialed, io.now);
      var res := Accept.Accept(st.reg, io.accepted, io.dialed, io.now);
      st', closed := State(res.reg, st.out), res.closed;
    case DataReady =>
      if io.buflen <= 0 {
        DisconnectCheckedClosesOnlyLive(st.reg, fd);
        if Live(st.reg, fd) {
          DisconnectPreservesValid(st.reg, fd);
        }
        var res := DisconnectChecked(st.reg, fd);
        st', closed := State(res.reg, st.out), res.closed;
      } else {
        RelayPreservesValid(st.reg, st.out, fd, io.buffer, io.buflen, io.now);
        var res := Relay.Relay(st.reg, st.out, fd, io.buffer, io.buflen, io.now);
        st', closed := State(res.reg, res.out), [];
      }
  }
}

=== FILE: registry.dfy ===
/** The connection registry of the relay: two parallel tables indexed by
    descriptor number. `socks[d]` is the peer descriptor paired with `d`
    (0 means the slot is free) and `atime[d]` is the time of the last
    transfer on `d`. Both tables have the fixed capacity MAXSOCK and start
    zero-filled. */
module Registry {

  /** Number of slots in each table; a descriptor at or above it cannot be tracked. */
  const MAXSOCK: int := 1024

  /** A pair whose last transfer is strictly more than this many seconds old is reclaimed. */
  const IDLE_LIMIT: int := 80

  datatype Registry = Registry(socks: seq<int>, atime: seq<int>)

  predicate WellSized(r: Registry) {
    |r.socks| == MAXSOCK && |r.atime| == MAXSOCK
  }

  /** Every stored peer can itself be used as a table index. */
  predicate Bounded(r: Registry) {
    && WellSized(r)
    && forall d :: 0 <= d < MAXSOCK ==> 0 <= r.socks[d] < MAXSOCK
  }

  /** Descriptor `d` currently belongs to a connection pair. */
  predicate Live(r: Registry, d: int)
    requires WellSized(r)
  {
    0 <= d < MAXSOCK && r.socks[d] > 0
  }

  /** The pairing invariant: slot 0 (the "free" sentinel) is never used, no
      descriptor is paired with itself, and pairing is symmetric. */
  predicate Paired(r: Registry) {
    && Bounded(r)
    && r.socks[0] == 0
    && forall a, b :: 0 <= a < MAXSOCK && 0 < b < MAXSOCK && r.socks[a] == b ==>
         a != b && r.socks[b] == a
  }

  /** Both halves of every pair carry the same last-activity time. */
  predicate SameStamp(r: Registry)
    requires Paired(r)
  {
    forall a :: 0 <= a < MAXSOCK && r.socks[a] > 0 ==> r.atime[r.socks[a]] == r.atime[a]
  }

  /** The full registry invariant. */
  predicate Valid(r: Registry) {
    Paired(r) && SameStamp(r)
  }

  /** Slot `d` has seen no transfer for strictly longer than IDLE_LIMIT seconds. */
  predicate Idle(r: Registry, now: int, d: int)
    requires WellSized(r)
    requires 0 <= d < MAXSOCK
  {
    now - r.atime[d] > IDLE_LIMIT
  }

  /** The zero-initialised tables the process starts with. */
  function Empty(): (r: Registry)
    ensures Valid(r)
    ensures forall d :: 0 <= d < MAXSOCK ==> !Live(r, d)
  {
    Registry(seq(MAXSOCK, _ => 0), seq(MAXSOCK, _ => 0))
  }

  /** In a paired registry the peer of a live descriptor is live, distinct
      from it, and points back. */
  lemma PeerOfLive(r: Registry, a: int)
    requires Paired(r)
    requires Live(r, a)
    ensures Live(r, r.socks[a])
    ensures r.socks[a] != a
    ensures r.socks[r.socks[a]] == a
  {
  }

  /** A slot holds `d` exactly when `d` is live and that slot is its peer:
      each live descriptor appears once among the peers. */
  lemma SlotHoldsPeer(r: Registry, k: int, d: int)
    requires Paired(r)
    requires 0 <= k < MAXSOCK
    ensures r.socks[k] > 0 && r.socks[k] == d <==> Live(r, d) && r.socks[d] == k
  {
  }
}

=== FILE: relay.dfy ===
/** The data branch of the reactor when a read returned bytes: forward them,
    unmodified, to the paired descriptor and refresh the activity time of
    both halves. Sending is modelled as appending to the byte stream that
    has been written to each descriptor. */
module Relay {
  import opened Registry

  newtype byte = x: int | 0 <= x < 256

  /** Size of the receive buffer a single read fills at most. */
  const BUFSIZE: int := 5000

  /** Everything written to each descriptor so far; a missing key has
      received nothing. */
  type Outbox = map<int, seq<byte>>

  function Written(out: Outbox, d: int): seq<byte> {
    if d in out then out[d] else []
  }

  datatype RelayResult = RelayResult(reg: Registry, out: Outbox)

  /** Forward the `buflen` bytes a read put at the front of `buffer` to the
      peer of `fd`. */
  function Relay(r: Registry, out: Outbox, fd: int, buffer: seq<byte>, buflen: int, now: int): (res: RelayResult)
    requires Bounded(r)
    requires 0 <= fd < MAXSOCK
    requires |buffer| == BUFSIZE
    requires 0 < buflen <= BUFSIZE
    ensures WellSized(res.reg)
    // exactly the bytes read reach the peer, after what it was sent before
    ensures Written(res.out, r.socks[fd]) == Written(out, r.socks[fd]) + buffer[..buflen]
    ensures forall d :: d != r.socks[fd] ==> Written(res.out, d) == Written(out, d)
    // the pairing is not touched; both halves are stamped with now
    ensures res.reg.socks == r.socks
    ensures res.reg.atime[fd] == now && res.reg.atime[r.socks[fd]] == now
    ensures forall k :: 0 <= k < MAXSOCK && k != fd && k != r.socks[fd] ==>
              res.reg.atime[k] == r.atime[k]
  {
    var peer := r.socks[fd];
    var out' := out[peer := Written(out, peer) + buffer[..buflen]];
    RelayResult(Registry(r.socks, r.atime[fd := now][peer := now]), out')
  }

  /** Relaying keeps the registry invariant, including equal stamps in each pair. */
  lemma RelayPreservesValid(r: Registry, out: Outbox, fd: int, buffer: seq<byte>, buflen: int, now: int)
    requires Valid(r)
    requires 0 <= fd < MAXSOCK
    requires |buffer| == BUFSIZE
    requires 0 < buflen <= BUFSIZE
    ensures Valid(Relay(r, out, fd, buffer, buflen, now).reg)
  {
    var r' := Relay(r, out, fd, buffer, buflen, now).reg;
    forall a | 0 <= a < MAXSOCK && r'.socks[a] > 0
      ensures r'.atime[r'.socks[a]] == r'.atime[a]
    {
      var b := r.socks[a];
      if a == fd || a == r.socks[fd] || b == fd || b == r.socks[fd] {
        // a and b are the pair being stamped (or fd is free and a is untouched)
        assert r.socks[b] == a;
      }
    }
  }

  /** Concatenation of the chunks a sequence of reads delivered. */
  function Concat(chunks: seq<seq<byte>>): seq<byte> {
    if |chunks| == 0 then [] else Concat(chunks[..|chunks| - 1]) + chunks[|chunks| - 1]
  }

  /** A read that fills the buffer with `chunk`: the chunk followed by
      whatever the rest of the buffer holds. */
  function Fill(chunk: seq<byte>): (buffer: seq<byte>)
    requires |chunk| <= BUFSIZE
    ensures |buffer| == BUFSIZE && buffer[..|chunk|] == chunk
  {
    chunk + seq(BUFSIZE - |chunk|, _ => 0 as byte)
  }

  /** One read of `chunk` appends exactly `chunk` to the peer's stream. */
  lemma RelayChunk(r: Registry, out: Outbox, fd: int, chunk: seq<byte>, now: int)
    requires Bounded(r)
    requires 0 <= fd < MAXSOCK
    requires 0 < |chunk| <= BUFSIZE
    ensures Written(Relay(r, out, fd, Fill(chunk), |chunk|, now).out, r.socks[fd]) == Written(out, r.socks[fd]) + chunk
  {
  }

  /** Successive readable events on `fd`, each delivering one chunk, all at
      time `now`. Passthrough fidelity: however a byte stream is split into
      reads of at most BUFSIZE bytes, the peer receives all of it, in order,
      unmodified. */
  function RelayEach(r: Registry, out: Outbox, fd: int, chunks: seq<seq<byte>>, now: int): (res: RelayResult)
    requires Bounded(r)
    requires 0 <= fd < MAXSOCK
    requires forall i :: 0 <= i < |chunks| ==> 0 < |chunks[i]| <= BUFSIZE
    ensures Bounded(res.reg) && res.reg.socks == r.socks
    ensures Written(res.out, r.socks[fd]) == Written(out, r.socks[fd]) + Concat(chunks)
  {
    if |chunks| == 0 then RelayResult(r, out)
    else
      var last := chunks[|chunks| - 1];
      var prev := RelayEach(r, out, fd, chunks[..|chunks| - 1], now);
      RelayChunk(prev.reg, prev.out, fd, last, now);
      Relay(prev.reg, prev.out, fd, Fill(last), |last|, now)
  }

  /** The same reads deliver nothing to any descriptor other than the peer. */
  lemma {:induction false} RelayEachOnlyToPeer(r: Registry, out: Outbox, fd: int, chunks: seq<seq<byte>>, now: int, d: int)
    requires Bounded(r)
    requires 0 <= fd < MAXSOCK
    requires forall i :: 0 <= i < |chunks| ==> 0 < |chunks[i]| <= BUFSIZE
    requires d != r.socks[fd]
    ensures Written(RelayEach(r, out, fd, chunks, now).out, d) == Written(out, d)
  {
    if |chunks| > 0 {
      RelayEachOnlyToPeer(r, out, fd, chunks[..|chunks| - 1], now, d);
    }
  }

  /** Split a payload into reads of at most BUFSIZE bytes the way a stream
      larger than the receive buffer arrives: full buffers first, the
      remainder last. */
  function Split(payload: seq<byte>): (chunks: seq<seq<byte>>)
    ensures forall i :: 0 <= i < |chunks| ==> 0 < |chunks[i]| <= BUFSIZE
    decreases |payload|
  {
    if |payload| == 0 then []
    else if |payload| <= BUFSIZE then [payload]
    else [payload[..BUFSIZE]] + Split(payload[BUFSIZE..])
  }

  lemma {:induction false} ConcatCons(first: seq<byte>, rest: seq<seq<byte>>)
    ensures Concat([first] + rest) == first + Concat(rest)
    decreases |rest|
  {
    if |rest| > 0 {
      var all := [first] + rest;
      ConcatCons(first, rest[..|rest| - 1]);
      assert all[..|all| - 1] == [first] + rest[..|rest| - 1];
    }
  }

  lemma {:induction false} SplitConcat(payload: seq<byte>)
    ensures Concat(Split(payload)) == payload
    decreases |payload|
  {
    if |payload| > BUFSIZE {
      var tail := payload[BUFSIZE..];
      SplitConcat(tail);
      ConcatCons(payload[..BUFSIZE], Split(tail));
      assert payload[..BUFSIZE] + tail == payload;
    } else if |payload| > 0 {
      assert Concat([payload]) == Concat([]) + payload;
    }
  }

  /** A payload of any length, larger than the buffer or not, reaches the peer intact. */
  lemma PayloadPassesThrough(r: Registry, out: Outbox, fd: int, payload: seq<byte>, now: int)
    requires Bounded(r)
    requires 0 <= fd < MAXSOCK
    ensures Written(RelayEach(r, out, fd, Split(payload), now).out, r.socks[fd]) == Written(out, r.socks[fd]) + payload
  {
    SplitConcat(payload);
  }
}

=== FILE: shutdown.dfy ===
/** The exit path: close every listener, then every descriptor found in the
    peer table, then the multiplexer and the timer. */
module Shutdown {
  import opened Registry

  /** The positive entries among the first `n` of `s`, in order: what a
      "close every positive entry" loop has closed after `n` iterations. */
  function Positives(s: seq<int>, n: nat): seq<int>
    requires n <= |s|
  {
    if n == 0 then []
    else Positives(s, n - 1) + (if s[n - 1] > 0 then [s[n - 1]] else [])
  }

  lemma CountSnoc(prev: seq<int>, v: int, d: int)
    ensures multiset(prev + (if v > 0 then [v] else []))[d] ==
              multiset(prev)[d] + (if v > 0 && v == d then 1 else 0)
  {
  }

  /** The descriptors the exit path closes, in order. */
  function ExitCloses(listeners: seq<int>, r: Registry, epollfd: int, tfd: int): seq<int>
    requires WellSized(r)
  {
    Positives(listeners, |listeners|) + Positives(r.socks, MAXSOCK) + [epollfd, tfd]
  }

  /** If `d` occurs as a positive entry of `s` only at index `p` (or
      nowhere, for `p` outside the table), then after `n` iterations the
      close-all loop has closed `d` once if it has passed `p`, else never. */
  lemma {:induction false} PrefixClosesOnce(s: seq<int>, n: nat, d: int, p: int)
    requires n <= |s|
    requires forall k :: 0 <= k < |s| ==> (s[k] > 0 && s[k] == d <==> k == p)
    ensures multiset(Positives(s, n))[d] == if 0 <= p < n then 1 else 0
  {
    if n > 0 {
      PrefixClosesOnce(s, n - 1, d, p);
      CountSnoc(Positives(s, n - 1), s[n - 1], d);
    }
  }

  /** Because pairing is symmetric, the values in the peer table are exactly
      the live descriptors: the exit path closes every live descriptor
      exactly once and closes no free one. */
  lemma ClientsClosedOnce(r: Registry)
    requires Paired(r)
    ensures forall d :: multiset(Positives(r.socks, MAXSOCK))[d] == if Live(r, d) then 1 else 0
  {
    forall d
      ensures multiset(Positives(r.socks, MAXSOCK))[d] == if Live(r, d) then 1 else 0
    {
      // a live descriptor occurs only in its peer's slot, a free one nowhere
      var p := if Live(r, d) then r.socks[d] else -1;
      forall k | 0 <= k < MAXSOCK
        ensures r.socks[k] > 0 && r.socks[k] == d <==> k == p
      {
        SlotHoldsPeer(r, k, d);
      }
      PrefixClosesOnce(r.socks, MAXSOCK, d, p);
    }
  }

  /** Between the listeners and the multiplexer and timer, the exit path
      closes every live descriptor exactly once and no free one. */
  lemma ExitClosesAll(listeners: seq<int>, r: Registry, epollfd: int, tfd: int)
    requires Paired(r)
    ensures var closes := ExitCloses(listeners, r, epollfd, tfd);
      forall d :: multiset(closes[|Positives(listeners, |listeners|)|..|closes| - 2])[d] == if Live(r, d) then 1 else 0
  {
    var closes := ExitCloses(listeners, r, epollfd, tfd);
    var m := |Positives(listeners, |listeners|)|;
    assert closes[m..|closes| - 2] == Positives(r.socks, MAXSOCK);
    ClientsClosedOnce(r);
  }
}

=== FILE: sweep.dfy ===
/** The idle reaper run on every timer tick: one pass over all MAXSOCK
    slots, closing and clearing every pair whose slot is found idle. */
module Sweep {
  import opened Registry

  /** Slot `d` belongs to a pair that the sweep at time `now` reclaims: it
      is live, and it or its peer has been idle for more than IDLE_LIMIT. */
  predicate Evicted(r: Registry, now: int, d: int)
    requires Bounded(r)
  {
    0 <= d < MAXSOCK && r.socks[d] > 0 && (Idle(r, now, d) || Idle(r, now, r.socks[d]))
  }

  /** Slot `d` has been cleared once the scan has passed index `jj`: it is
      live and the scan has already visited it or its peer and found that
      slot idle. */
  predicate ClearedBefore(r: Registry, now: int, jj: int, d: int)
    requires Bounded(r)
  {
    && 0 <= d < MAXSOCK && r.socks[d] > 0
    && ((d < jj && Idle(r, now, d)) || (r.socks[d] < jj && Idle(r, now, r.socks[d])))
  }

  /** The idle sweep of one timer tick: every pair with an idle half is
      closed and cleared once; the peer of a cleared slot is skipped when the
      scan reaches it. */
  method Sweep(r: Registry, now: int) returns (r': Registry, closed: seq<int>)
    requires Paired(r)
    ensures r'.atime == r.atime
    ensures WellSized(r')
    ensures forall k :: 0 <= k < MAXSOCK ==>
              r'.socks[k] == if Evicted(r, now, k) then 0 else r.socks[k]
    // every descriptor of an evicted pair is closed exactly once, nothing else is closed
    ensures forall d :: multiset(closed)[d] == if Evicted(r, now, d) then 1 else 0
    // no live slot is left idle; a live slot that was not idle keeps its peer
    ensures forall k :: 0 <= k < MAXSOCK && r'.socks[k] > 0 ==> !Idle(r', now, k)
    ensures forall k :: Live(r, k) && !Idle(r, now, k) && !Idle(r, now, r.socks[k]) ==> r'.socks[k] == r.socks[k]
    // with equal stamps in each pair: a pair idle for at most IDLE_LIMIT seconds survives
    ensures Valid(r) ==> forall k :: Live(r, k) && now - r.atime[k] <= IDLE_LIMIT ==> r'.socks[k] == r.socks[k]
    // pairs are removed whole, so the pairing invariant survives
    ensures Paired(r')
    ensures Valid(r) ==> Valid(r')
  {
    var socks;
    socks, closed := Scan(r, now);
    r' := Registry(socks, r.atime);
    ScanComplete(r, now, r', closed);
  }

  /** The loop itself: visit slots 0 .. MAXSOCK-1 in order; a live slot found
      idle has its peer and itself closed, then the peer's slot and its own
      slot cleared. The result is the peer table after the scan and the
      descriptors closed, in order. */
  method Scan(r: Registry, now: int) returns (socks: seq<int>, closed: seq<int>)
    requires Paired(r)
    ensures |socks| == MAXSOCK
    ensures forall k :: 0 <= k < MAXSOCK ==>
              socks[k] == if ClearedBefore(r, now, MAXSOCK, k) then 0 else r.socks[k]
    ensures forall d :: multiset(closed)[d] == if ClearedBefore(r, now, MAXSOCK, d) then 1 else 0
  {
    socks := r.socks;
    closed := [];
    var jj := 0;
    while jj < MAXSOCK
      invariant 0 <= jj <= MAXSOCK
      invariant |socks| == MAXSOCK
      invariant forall k :: 0 <= k < MAXSOCK ==>
                  socks[k] == if ClearedBefore(r, now, jj, k) then 0 else r.socks[k]
      invariant forall d :: multiset(closed)[d] == if ClearedBefore(r, now, jj, d) then 1 else 0
    {
      if socks[jj] > 0 && now - r.atime[jj] > IDLE_LIMIT {
        var peer := socks[jj];
        IdleSlotUncleared(r, now, jj, socks);
        ClosePairCounts(r, now, jj, closed, peer);
        ClosePairSlots(r, now, jj, socks, peer);
        closed := closed + [socks[peer], socks[jj]];
        socks := socks[socks[jj] := 0];
        socks := socks[jj := 0];
      } else {
        SkipSlot(r, now, jj, socks, closed);
      }
      jj := jj + 1;
    }
  }

  /** A slot the scan finds live is still in its original pair, and its
      peer's slot still points back at it. */
  lemma IdleSlotUncleared(r: Registry, now: int, jj: int, socks: seq<int>)
    requires Paired(r)
    requires 0 <= jj < MAXSOCK
    requires |socks| == MAXSOCK
    requires forall k :: 0 <= k < MAXSOCK ==>
               socks[k] == if ClearedBefore(r, now, jj, k) then 0 else r.socks[k]
    requires socks[jj] > 0
    ensures socks[jj] == r.socks[jj] && r.socks[socks[jj]] == jj && socks[socks[jj]] == jj
    ensures !ClearedBefore(r, now, jj, jj)
  {
  }

  /** Clearing the idle slot `jj` and its peer (peer first) moves the scan
      position past `jj`. */
  lemma ClosePairSlots(r: Registry, now: int, jj: int, socks: seq<int>, peer: int)
    requires Paired(r)
    requires 0 <= jj < MAXSOCK && r.socks[jj] == peer && peer > 0
    requires Idle(r, now, jj)
    requires |socks| == MAXSOCK
    requires forall k :: 0 <= k < MAXSOCK ==>
               socks[k] == if ClearedBefore(r, now, jj, k) then 0 else r.socks[k]
    ensures forall k :: 0 <= k < MAXSOCK ==>
              socks[peer := 0][jj := 0][k] == if ClearedBefore(r, now, jj + 1, k) then 0 else r.socks[k]
  {
  }

  /** A slot that is free, or live but not idle, is passed over; the slots
      cleared so far stay exactly the same. */
  lemma SkipSlot(r: Registry, now: int, jj: int, socks: seq<int>, closed: seq<int>)
    requires Paired(r)
    requires 0 <= jj < MAXSOCK
    requires |socks| == MAXSOCK
    requires forall k :: 0 <= k < MAXSOCK ==>
               socks[k] == if ClearedBefore(r, now, jj, k) then 0 else r.socks[k]
    requires forall d :: multiset(closed)[d] == if ClearedBefore(r, now, jj, d) then 1 else 0
    requires !(socks[jj] > 0 && Idle(r, now, jj))
    ensures forall k :: 0 <= k < MAXSOCK ==>
              socks[k] == if ClearedBefore(r, now, jj + 1, k) then 0 else r.socks[k]
    ensures forall d :: multiset(closed)[d] == if ClearedBefore(r, now, jj + 1, d) then 1 else 0
  {
  }

  /** Closing the idle slot `jj` and its peer adds exactly that pair to the
      descriptors closed so far. */
  lemma ClosePairCounts(r: Registry, now: int, jj: int, closed: seq<int>, peer: int)
    requires Paired(r)
    requires 0 <= jj < MAXSOCK && r.socks[jj] == peer && peer > 0
    requires Idle(r, now, jj)
    requires !ClearedBefore(r, now, jj, jj)
    requires forall d :: multiset(closed)[d] == if ClearedBefore(r, now, jj, d) then 1 else 0
    ensures forall d :: multiset(closed + [jj, peer])[d] == if ClearedBefore(r, now, jj + 1, d) then 1 else 0
  {
    forall d
      ensures multiset(closed + [jj, peer])[d] == if ClearedBefore(r, now, jj + 1, d) then 1 else 0
    {
      assert multiset(closed + [jj, peer])[d] ==
        multiset(closed)[d] + (if d == jj then 1 else 0) + (if d == peer then 1 else 0);
    }
  }

  /** Once the scan has passed every slot, "cleared before the scan
      position" is "evicted"; what follows for the resulting registry. */
  lemma ScanComplete(r: Registry, now: int, r': Registry, closed: seq<int>)
    requires Paired(r)
    requires WellSized(r') && r'.atime == r.atime
    requires forall k :: 0 <= k < MAXSOCK ==>
               r'.socks[k] == if ClearedBefore(r, now, MAXSOCK, k) then 0 else r.socks[k]
    requires forall d :: multiset(closed)[d] == if ClearedBefore(r, now, MAXSOCK, d) then 1 else 0
    ensures forall k :: 0 <= k < MAXSOCK ==>
              r'.socks[k] == if Evicted(r, now, k) then 0 else r.socks[k]
    ensures forall d :: multiset(closed)[d] == if Evicted(r, now, d) then 1 else 0
    ensures forall k :: 0 <= k < MAXSOCK && r'.socks[k] > 0 ==> !Idle(r', now, k)
    ensures forall k :: Live(r, k) && !Idle(r, now, k) && !Idle(r, now, r.socks[k]) ==> r'.socks[k] == r.socks[k]
    ensures Valid(r) ==> forall k :: Live(r, k) && now - r.atime[k] <= IDLE_LIMIT ==> r'.socks[k] == r.socks[k]
    ensures Paired(r')
    ensures Valid(r) ==> Valid(r')
  {
    assert forall d :: ClearedBefore(r, now, MAXSOCK, d) == Evicted(r, now, d);
    EvictionKeepsPairs(r, now, r');
  }

  /** Clearing whole evicted pairs keeps the registry paired, and keeps
      equal stamps where there were equal stamps. */
  lemma EvictionKeepsPairs(r: Registry, now: int, r': Registry)
    requires Paired(r)
    requires WellSized(r') && r'.atime == r.atime
    requires forall k :: 0 <= k < MAXSOCK ==> r'.socks[k] == if Evicted(r, now, k) then 0 else r.socks[k]
    ensures Paired(r')
    ensures SameStamp(r) ==> SameStamp(r')
    ensures SameStamp(r) ==> forall k :: Live(r, k) && now - r.atime[k] <= IDLE_LIMIT ==> r'.socks[k] == r.socks[k]
  {
  }
}

=== FILE: teardown.dfy ===
/** Tearing down a pair when a read on one of its descriptors returns zero
    or an error: both descriptors are closed and both slots cleared, the
    peer's slot first. */
module Teardown {
  import opened Registry

  datatype TeardownResult = TeardownResult(reg: Registry, closed: seq<int>)

  /** The teardown as the relay performs it for descriptor `fd`: close `fd`,
      close its recorded peer, clear the peer's slot, then clear `fd`'s slot.
      The peer is not checked, so on an already-cleared `fd` the "peer" is
      descriptor 0. */
  function Disconnect(r: Registry, fd: int): (res: TeardownResult)
    requires Bounded(r)
    requires 0 <= fd < MAXSOCK
    ensures Bounded(res.reg)
    ensures res.closed == [fd, r.socks[fd]]
    ensures res.reg.socks[fd] == 0 && res.reg.socks[r.socks[fd]] == 0
    ensures forall k :: 0 <= k < MAXSOCK && k != fd && k != r.socks[fd] ==>
              res.reg.socks[k] == r.socks[k]
    ensures res.reg.atime == r.atime
  {
    var peer := r.socks[fd];
    var socks := r.socks[peer := 0];
    TeardownResult(Registry(socks[fd := 0], r.atime), [fd, peer])
  }

  /** Disconnecting a live descriptor removes exactly its pair: the registry
      stays valid and every other pair is untouched. */
  lemma DisconnectPreservesValid(r: Registry, fd: int)
    requires Valid(r)
    requires 0 <= fd < MAXSOCK
    ensures Valid(Disconnect(r, fd).reg)
    ensures forall k :: 0 <= k < MAXSOCK && Live(r, k) && k != fd && k != r.socks[fd] ==>
              Disconnect(r, fd).reg.socks[k] == r.socks[k]
  {
    var r' := Disconnect(r, fd).reg;
    forall a | 0 <= a < MAXSOCK && r'.socks[a] > 0
      ensures r'.socks[a] != a && r'.socks[r'.socks[a]] == a
      ensures r'.atime[r'.socks[a]] == r'.atime[a]
    {
      // a survived, so it is neither fd nor its peer, nor paired with either
      assert a != fd && a != r.socks[fd];
      assert r.socks[r.socks[a]] == a;
    }
  }

  /** Teardown of a descriptor whose slot is already clear writes only slot 0
      (and slot `fd`, which is already 0): the tables do not change. It still
      closes `fd` once more and closes descriptor 0. */
  lemma DisconnectOfClearedSlot(r: Registry, fd: int)
    requires Paired(r)
    requires 0 <= fd < MAXSOCK && r.socks[fd] == 0
    ensures Disconnect(r, fd).reg == r
    ensures Disconnect(r, fd).closed == [fd, 0]
  {
  }

  /** The two clearing writes in the opposite order: own slot first, then the
      slot named by the (now zero) own slot. */
  function ClearSelfFirst(r: Registry, fd: int): (r': Registry)
    requires Bounded(r)
    requires 0 <= fd < MAXSOCK
    ensures WellSized(r')
  {
    var socks := r.socks[fd := 0];
    Registry(socks[socks[fd] := 0], r.atime)
  }

  /** Why the order matters: clearing the own slot first wipes slot 0 instead
      of the peer's, leaving the peer pointing at a free descriptor. */
  lemma ClearSelfFirstStrandsPeer(r: Registry, fd: int)
    requires Paired(r)
    requires Live(r, fd)
    ensures ClearSelfFirst(r, fd).socks[r.socks[fd]] == fd
    ensures ClearSelfFirst(r, fd).socks[fd] == 0
    ensures !Paired(ClearSelfFirst(r, fd))
  {
  }

  /** Teardown that first checks whether `fd` still has a peer: a descriptor
      whose pair has already been torn down (earlier in the same batch of
      events) is left alone. */
  function DisconnectChecked(r: Registry, fd: int): (res: TeardownResult)
    requires Bounded(r)
    requires 0 <= fd < MAXSOCK
    ensures Bounded(res.reg)
    ensures res.reg.atime == r.atime
  {
    if r.socks[fd] == 0 then TeardownResult(r, [])
    else Disconnect(r, fd)
  }

  /** The checked teardown closes exactly the two halves of a live pair,
      never descriptor 0 and never a descriptor that was already released,
      and keeps the registry valid. */
  lemma DisconnectCheckedClosesOnlyLive(r: Registry, fd: int)
    requires Valid(r)
    requires 0 <= fd < MAXSOCK
    ensures var res := DisconnectChecked(r, fd);
      && Valid(res.reg)
      && (Live(r, fd) ==> res.closed == [fd, r.socks[fd]] && !Live(res.reg, fd) && !Live(res.reg, r.socks[fd]))
      && (!Live(r, fd) ==> res.closed == [] && res.reg == r)
      && forall d :: d in res.closed ==> Live(r, d)
  {
    if Live(r, fd) {
      DisconnectPreservesValid(r, fd);
      PeerOfLive(r, fd);
    }
  }

  /** Both ends of a pair report end of stream in the same batch of events.
      With the unchecked teardown the second event closes the peer a second
      time and closes descriptor 0, which is not a connection at all. */
  lemma BothEndsHangUpUnchecked(r: Registry, fd: int)
    requires Paired(r)
    requires Live(r, fd)
    ensures var peer := r.socks[fd];
      var first := Disconnect(r, fd);
      var second := Disconnect(first.reg, peer);
      && first.closed + second.closed == [fd, peer, peer, 0]
      && second.reg == first.reg
  {
  }

  /** The same batch handled with the checked teardown: the pair is closed
      once, each descriptor once, and descriptor 0 is never closed. */
  lemma BothEndsHangUpChecked(r: Registry, fd: int)
    requires Valid(r)
    requires Live(r, fd)
    ensures var peer := r.socks[fd];
      var first := DisconnectChecked(r, fd);
      var second := DisconnectChecked(first.reg, peer);
      && first.closed + second.closed == [fd, peer]
      && fd != peer && 0 !in first.closed + second.closed
      && second.reg == first.reg
      && !Live(second.reg, fd) && !Live(second.reg, peer)
  {
  }
}
